=== FILE: README.md ===
# Name quiz: statistics store and quiz session, in Dafny

This project models the logic of a small teacher's flashcard quiz. The quiz
shows a student's photo and asks which of three names belongs to it. The
model has two halves.

- **The server store** (`MemStorage`). It seeds a fixed roster of fifteen
  students with ids 1..15 and zeroed counters. It keeps an append-only log of
  quiz attempts and bumps per-student counters. On demand it derives a
  statistics report: overall and per-student accuracy, and the ten most recent
  attempts, newest first. The three HTTP handlers (list students, get
  statistics, post an attempt) are one atomic transition each over this store.
- **The quiz page's state logic.** This covers the Fisher–Yates
  `shuffleArray`, question selection (a random target plus two shuffled
  distractors, shuffled together), and the answer transition that updates the
  score. It also covers the gate that disables the answer buttons once a
  question is answered, and the effect that starts the first round.

Everything is an immutable value with pure transition functions.
`Math.random()` becomes an explicit stream `rand: nat -> Unit` of reals in
[0, 1), read from a cursor. Index draws are computed as
client/src/pages/quiz.tsx writes them (`Floor(u * n)`), so the bound
`0 <= j <= i` is proved rather than assumed.
`Date.now()` and `new Date()` become integer `now` parameters. Accuracy
percentages are exact `real`s.

Modules: `Wrappers` (Option), `Schema` (the shared record shapes), `Roster`
(the predefined students), `Storage` (the store and its report), `Routes`
(request bodies, the handlers, and sequences of requests), `Shuffle`
(Fisher–Yates), `Quiz` (the page's transitions) and `Session` (the page
posting its answers to the server).

The central invariant is `Storage.Valid`. It says that students carry ids
1..n in order and log entries carry ids 1..m in order. It also says that each
student's `totalAttempts` and `correctAttempts` equal the number of logged
attempts (and correct attempts) that name that student. It holds for the
initial store and is kept by every handler. From it follow
`correctAttempts <= totalAttempts` and the fact that the summed totals keep
pace with the log.

The program validates less than one might expect:
- The code does not reject an unknown `studentId` or a negative `timeSpent`.
  An unknown id is still appended to the log, and the counter update does
  nothing (`Storage.UpdateStudentStats`, `Routes.PostUpdatesCounters`).
- A lookup of an unknown student is a silent no-op, not a NotFound error.
- Answering when no question is pending is not rejected either.
  `handleAnswer` returns without effect when there is no target or the start
  time is falsy (absent or 0). A second answer to the same question is
  prevented only by the disabled buttons (`Quiz.ClickAnswer`).

## Model

| member | source | states |
|---|---|---|
| Roster.Predefined | shared/data/students.ts:3-65 | the roster has exactly 15 entries, each with a non-empty name and photo path |
| Roster.PredefinedNamesDistinct | shared/data/students.ts:5-63 | the 15 predefined names are pairwise distinct |
| Storage.Seed | server/storage.ts:24-34 | the k-th roster entry becomes the student with id firstId + k, same name, the photo, both counters 0 |
| Storage.New | server/storage.ts:17-35 | a new store is valid, has an empty log, next attempt id 1, and one zeroed student per roster entry in roster order |
| Storage.IndexOf | server/storage.ts:52 | the lookup finds the first student with the id, or reports that no student has it |
| Storage.GetStudents | server/storage.ts:37-39 | returns every student; on a valid store, the k-th has id k + 1, so the list is in increasing id order |
| Storage.RecordAttempt | server/storage.ts:41-49 | appends exactly one entry at the end, with the next attempt id, the given fields and timestamp now; earlier entries and students unchanged; no check on studentId |
| Storage.UpdateStudentStats | server/storage.ts:51-60 | for an existing id, total goes up by 1 and correct goes up by 1 exactly when correct is true, all other students unchanged; an unknown id leaves the store unchanged; correct <= total is preserved |
| Storage.CountCorrect | server/storage.ts:65 | the number of correct attempts never exceeds the log length |
| Storage.Accuracy | server/storage.ts:68-74 | accuracy is 0 with no attempts; otherwise accuracy times total equals 100 times correct; it lies in [0, 100] when correct <= total |
| Storage.Reverse | server/storage.ts:77 | the result has the same length and holds the input back to front |
| Storage.Recent | server/storage.ts:77 | the recent list holds min(10, length of the log) entries, the i-th being the i-th from the end |
| Storage.StatFor | server/storage.ts:70-76 | a report entry carries its student and attempt count, accuracy 0 at 0 attempts and otherwise accuracy times attempts equal to 100 times correct attempts |
| Storage.StudentStats | server/storage.ts:70-76 | one report entry per student, in roster order, each with that student's count and accuracy as above |
| Storage.GetStatistics | server/storage.ts:62-79 | totalAttempts is the log length; overall accuracy is 0 on an empty log, else 100 times correct over total, always within [0, 100]; one stat per student in order with its attempt count and 0 accuracy at 0 attempts and otherwise accuracy times attempts equal to 100 times correct attempts; recent attempts newest first, at most 10 |
| Storage.ValidCountersOrdered | server/storage.ts:54-57 | on a valid store every student has correct <= total, so each per-student accuracy lies in [0, 100] |
| Storage.ValidIndexOf | server/storage.ts:26-33 | on a valid store an id is known exactly when it lies in 1..n, and then it sits at position id - 1 |
| Storage.ValidDistinctIds | server/storage.ts:26 | ids handed out by the incrementing counter are pairwise distinct |
| Storage.LogKeepsPace | server/storage.ts:41-59 | on a valid store the students' totals sum to the number of logged attempts naming an existing student, and to the whole log when every attempt does |
| Routes.AsInt | shared/schema.ts:16 | an accepted integer field is exactly the number of that integer |
| Routes.AsBool | shared/schema.ts:17 | an accepted boolean field is exactly that boolean |
| Routes.Parse | shared/schema.ts:27-31 | non-object bodies are rejected; an accepted body has all three picked keys, with a boolean correct |
| Routes.Encode | client/src/pages/quiz.tsx:82-86 | the posted body has exactly the keys studentId, correct and timeSpent, and parses back to the attempt |
| Routes.ParseInvertsEncode | shared/schema.ts:27-31 | whatever the parse accepts is the encoding of its result once unpicked keys are stripped |
| Routes.ParseIgnoresOtherKeys | shared/schema.ts:27-31 | keys other than the three picked ones, such as a client-sent id or timestamp, never change the parse |
| Routes.Handle | server/routes.ts:7-26 | GET handlers leave the store unchanged and answer with the student list and the statistics report of the current store; a rejected body gives 400 and no change; an accepted one appends exactly one entry, which is the response, with the parsed fields, and keeps the roster size |
| Routes.PostUpdatesCounters | server/routes.ts:20-21 | an accepted post bumps exactly the named student's counters (correct only when correct); for an unknown id no student changes |
| Routes.HandlePreservesValid | server/routes.ts:17-26 | every handler keeps the store invariant (ids, attempt ids, counters equal to counts over the log) |
| Routes.RunPreservesValid | server/routes.ts:7-26 | any sequence of requests keeps the store invariant |
| Routes.ServerStoreAlwaysValid | server/storage.ts:82 | the server's store, built from the predefined roster, is valid after any sequence of requests |
| Routes.PostKeepsPace | server/routes.ts:20-21 | an accepted post grows the log by 1 and the summed totals by 1 for a known id, by 0 for an unknown one |
| Shuffle.RandomIndex | client/src/pages/quiz.tsx:15 | Floor(u * n) for u in [0, 1) is an index in 0..n-1 |
| Shuffle.RandomIndexOnto | client/src/pages/quiz.tsx:15 | every index 0..n-1 is reachable: the draw j / n yields exactly j |
| Shuffle.Swap | client/src/pages/quiz.tsx:16 | the swap exchanges positions i and j, leaves the rest, and is a permutation |
| Shuffle.FisherYates | client/src/pages/quiz.tsx:14-17 | the loop from i down to 1 returns a permutation of its input and consumes exactly i random numbers |
| Shuffle.ShuffleArray | client/src/pages/quiz.tsx:12-19 | the shuffle returns a permutation (same length, same multiset) and consumes one random number per element but the first |
| Quiz.Initial | client/src/pages/quiz.tsx:22-27 | the page starts with score 0 of 0, unanswered, no target or choices, and start time now |
| Quiz.WithoutId | client/src/pages/quiz.tsx:46 | the filter keeps exactly the students whose id differs from the target's |
| Quiz.Take | client/src/pages/quiz.tsx:49 | slice(0, n) is the first min(n, length) elements |
| Quiz.ShuffleMembers | client/src/pages/quiz.tsx:12-19 | a shuffled list of students has the same members as its input |
| Quiz.Choices | client/src/pages/quiz.tsx:46-50 | the choices contain the target, and every other choice is a roster student whose id differs from the target's |
| Quiz.SetupNextQuestion | client/src/pages/quiz.tsx:42-59 | with no list or fewer than 3 students nothing changes; otherwise the target and every choice come from the list, the target is among the choices, distractors never share its id, correct is cleared, start time is now, and score and total are kept |
| Quiz.HandleAnswer | client/src/pages/quiz.tsx:68-87 | with no target or a falsy start time nothing changes; otherwise correct is whether the chosen id is the target's, total goes up by 1 and score by 1 exactly when correct, the posted attempt names the target, and timeSpent is the floor of the elapsed milliseconds over 1000; score <= total is preserved |
| Quiz.ClickAnswer | client/src/pages/quiz.tsx:171-172 | once the question is answered a click does nothing; otherwise it is handleAnswer |
| Quiz.StartIfReady | client/src/pages/quiz.tsx:62-66 | once at least 3 students are loaded a target is showing; when none was, a full question is set up: choices containing the target, correct cleared, start time now, score and total kept; otherwise nothing changes |
| Quiz.SwapKeepsDistinctIds | client/src/pages/quiz.tsx:16 | a swap keeps student ids pairwise distinct |
| Quiz.FisherYatesKeepsDistinctIds | client/src/pages/quiz.tsx:14-17 | the shuffle loop keeps student ids pairwise distinct |
| Quiz.ShuffleKeepsDistinctIds | client/src/pages/quiz.tsx:12-19 | shuffling students with distinct ids yields students with distinct ids |
| Quiz.WithoutIdOfMember | client/src/pages/quiz.tsx:46 | filtering out a present target from distinct-id students removes exactly one student and keeps ids distinct |
| Quiz.DistractorsWellFormed | client/src/pages/quiz.tsx:46-49 | with at least 3 distinct-id students, the two distractors have distinct ids, and neither has the target's id |
| Quiz.BaseDistinct | client/src/pages/quiz.tsx:47-50 | the target followed by two distractors with other, distinct ids makes three students with distinct ids |
| Quiz.ChoicesWellFormed | client/src/pages/quiz.tsx:46-50 | with at least 3 distinct-id students there are exactly 3 choices, with distinct ids |
| Quiz.TargetExactlyOnce | client/src/pages/quiz.tsx:47-50 | three distinct-id choices containing the target hold it at exactly one position, and no other position has its id |
| Quiz.SetupChoosesThree | client/src/pages/quiz.tsx:43-50 | with at least 3 students of distinct ids, the question has exactly 3 choices with distinct ids, exactly one of which is the target |
| Quiz.AnsweredAtMostOnce | client/src/pages/quiz.tsx:171 | after a click that scores an answer, a second click changes nothing and posts nothing |
| Session.Step | client/src/pages/quiz.tsx:68-91 | the next-question event never touches the server store, keeps score and total, and with at least 3 students clears correct, sets the start time and shows a target from the list among the choices (with fewer it changes nothing); a click on an answered question changes nothing; any click keeps the current student, the choices and the start time |
| Session.StepKeepsInStep | client/src/pages/quiz.tsx:74-86 | every event keeps the page's total equal to the log entries the session added and its score equal to the correct ones among them, and keeps the store valid |
| Session.AnswerIsRecorded | client/src/pages/quiz.tsx:82-86 | a scored click appends one entry naming the target with the right correctness and a whole-second time spent that floors the elapsed milliseconds, marks the answer, keeps the question shown, and bumps the target's total (and its correct count exactly when the answer was right) when the target exists on the server |
| Session.ServerRosterSupportsQuiz | shared/data/students.ts:3-65 | the server's initial roster has 15 students with distinct ids, so a question on it gets exactly 3 choices |

## Left out

- Rendering, styling, loading and empty states of the pages, and the share buttons. They are presentation only.
- The Electron bootstrap, Express routing plumbing and the react-query fetch, cache and invalidation. Each handler is one atomic transition.
- Session.StepKeepsInStep: the server store is shared by every client, but the system here has one page and no other writer; posts from other tabs or users interleaved between two clicks are not modelled, and with them the session's total would no longer equal the log growth.
- A failed POST (network error): `Session` assumes every scored answer reaches the server.
- The page reads state through a render-time closure (`gameState` in `handleAnswer`). It is modelled as reading the current state.
- The `avatarSeed` column: it is random and never read.
- Floating-point rounding: accuracies are exact rationals. `toFixed` and the rounded share percentage are display only.
- Routes.AsInt: does not model the 32-bit range bound that some versions of the schema library add to integer columns, nor the 2^53 precision limit of JavaScript numbers; the integrality check itself is version-dependent too (older versions of the schema library map an integer column to a plain number validator that accepts fractions), and the model follows the versions that check it.
- Shuffle.RandomIndex: takes `Math.random()` as an exact real in [0, 1); it does not model floating-point rounding in `u * n`.
- Schema.Student: the counters are natural numbers, although the column type is a nullable integer. The store only ever creates 0 and increments.
- Statistical uniformity of the question selection and of the shuffle: not modelled, because it needs a probability model of `Math.random`; the model proves only that every index can be drawn (Shuffle.RandomIndexOnto).

=== FILE: quiz.dfy ===
/**
 The state logic of the quiz page (client/src/pages/quiz.tsx) without its
 rendering: question selection, the answer transition, the button gate that
 disables answering once a question is answered, and the effect that starts
 the first round. Randomness is the stream `rand` of the Shuffle module, read
 from cursor `k`; every transition that draws returns the advanced cursor.
 */
module Quiz {
  import opened Wrappers
  import opened Schema
  import opened Shuffle

  /** The state the page starts in. */
  function Initial(now: int): (g: GameState)
    ensures g.score == 0 && g.total == 0 && g.correct.None?
    ensures g.currentStudent.None? && g.choices.None? && g.startTime == Some(now)
  {
    GameState(0, 0, None, None, None, Some(now))
  }

  /** `students.filter(s => s.id !== id)`. */
  function WithoutId(ss: seq<Student>, id: int): (r: seq<Student>)
    ensures |r| <= |ss|
    ensures forall x :: x in r <==> x in ss && x.id != id
    decreases |ss|
  {
    if ss == [] then []
    else (if ss[0].id != id then [ss[0]] else []) + WithoutId(ss[1..], id)
  }

  /** `slice(0, n)`. */
  function Take<T>(s: seq<T>, n: nat): (r: seq<T>)
    ensures |r| == if n <= |s| then n else |s|
    ensures forall i :: 0 <= i < |r| ==> r[i] == s[i]
  {
    if n <= |s| then s[..n] else s
  }

  /** The members of a shuffled list of students are those of the input. */
  lemma ShuffleMembers(a: seq<Student>, rand: nat -> Unit, k: nat)
    ensures var r := ShuffleArray(a, rand, k).0;
      && (forall i :: 0 <= i < |r| ==> r[i] in a)
      && (forall i :: 0 <= i < |a| ==> a[i] in r)
  {
    var r := ShuffleArray(a, rand, k).0;
    forall i | 0 <= i < |r| ensures r[i] in a {
      assert r[i] in multiset(r);
    }
    forall i | 0 <= i < |a| ensures a[i] in r {
      assert a[i] in multiset(a);
    }
  }

  /** The choice list for target `current`: shuffle the other students, keep
      the first two, and shuffle the target in among them. */
  function Choices(ss: seq<Student>, current: Student, rand: nat -> Unit, k: nat): (r: (seq<Student>, nat))
    ensures current in r.0
    ensures forall i :: 0 <= i < |r.0| ==>
      r.0[i] == current || (r.0[i] in ss && r.0[i].id != current.id)
    ensures r.1 >= k
  {
    var others := ShuffleArray(WithoutId(ss, current.id), rand, k);
    ShuffleMembers(WithoutId(ss, current.id), rand, k);
    var base := [current] + Take(others.0, 2);
    var choices := ShuffleArray(base, rand, others.1);
    ShuffleMembers(base, rand, others.1);
    assert base[0] == current;
    choices
  }

  /** `setupNextQuestion`: nothing happens without at least three students;
      otherwise draw a target and build its choices. */
  function SetupNextQuestion(g: GameState, students: Option<seq<Student>>,
                             rand: nat -> Unit, k: nat, now: int): (r: (GameState, nat))
    ensures students.None? || |students.value| < 3 ==> r == (g, k)
    ensures students.Some? && |students.value| >= 3 ==>
      && r.0.score == g.score && r.0.total == g.total
      && r.0.correct.None? && r.0.startTime == Some(now)
      && r.0.currentStudent.Some? && r.0.currentStudent.value in students.value
      && r.0.choices.Some?
      && r.0.currentStudent.value in r.0.choices.value
      && (forall x :: x in r.0.choices.value ==> x in students.value)
      && (forall x :: x in r.0.choices.value && x != r.0.currentStudent.value ==>
            x.id != r.0.currentStudent.value.id)
      && r.1 > k
  {
    if students.None? || |students.value| < 3 then (g, k)
    else
      var ss := students.value;
      var current := ss[RandomIndex(rand(k), |ss|)];
      var choices := Choices(ss, current, rand, k + 1);
      (g.(currentStudent := Some(current), choices := Some(choices.0),
          correct := None, startTime := Some(now)), choices.1)
  }

  /** `handleAnswer`: ignored without a target or with a falsy start time;
      otherwise score the answer against the target and produce the attempt
      to post, which names the target rather than the chosen student. */
  function HandleAnswer(g: GameState, chosen: Student, now: int): (r: (GameState, Option<InsertQuizAttempt>))
    ensures g.currentStudent.None? || g.startTime.None? || g.startTime == Some(0) ==> r == (g, None)
    ensures g.currentStudent.Some? && g.startTime.Some? && g.startTime != Some(0) ==>
      var target := g.currentStudent.value;
      var ok := chosen.id == target.id;
      && r.0.correct == Some(ok)
      && r.0.total == g.total + 1
      && (ok ==> r.0.score == g.score + 1)
      && (!ok ==> r.0.score == g.score)
      && r.0.currentStudent == g.currentStudent && r.0.choices == g.choices
      && r.0.startTime == g.startTime
      && r.1.Some?
      && r.1.value.studentId == target.id
      && r.1.value.correct == ok
      && r.1.value.timeSpent * 1000 <= now - g.startTime.value < (r.1.value.timeSpent + 1) * 1000
    ensures g.score <= g.total ==> r.0.score <= r.0.total
  {
    if g.currentStudent.None? || g.startTime.None? || g.startTime.value == 0 then (g, None)
    else
      var target := g.currentStudent.value;
      var correct := chosen.id == target.id;
      // Dafny's `/` by a positive divisor rounds down, as `Math.floor` does.
      var timeSpent := (now - g.startTime.value) / 1000;
      (g.(score := g.score + (if correct then 1 else 0), total := g.total + 1, correct := Some(correct)),
       Some(InsertQuizAttempt(target.id, correct, timeSpent)))
  }

  /** A click on an answer button: the buttons are disabled once the current
      question has been answered, so such a click does nothing. */
  function ClickAnswer(g: GameState, chosen: Student, now: int): (r: (GameState, Option<InsertQuizAttempt>))
    ensures g.correct.Some? ==> r == (g, None)
    ensures g.correct.None? ==> r == HandleAnswer(g, chosen, now)
    ensures r.1.Some? ==> r.0.correct.Some? && r.0.total == g.total + 1
  {
    if g.correct.Some? then (g, None) else HandleAnswer(g, chosen, now)
  }

  /** The page's effect: set up the first question once at least three
      students have loaded and no target is showing yet. */
  function StartIfReady(g: GameState, students: Option<seq<Student>>,
                        rand: nat -> Unit, k: nat, now: int): (r: (GameState, nat))
    ensures students.Some? && |students.value| >= 3 ==> r.0.currentStudent.Some?
    ensures students.Some? && |students.value| >= 3 && g.currentStudent.None? ==>
      && r.0.choices.Some? && r.0.currentStudent.value in r.0.choices.value
      && r.0.correct.None? && r.0.startTime == Some(now)
      && r.0.score == g.score && r.0.total == g.total
    ensures g.currentStudent.Some? || students.None? || |students.value| < 3 ==> r == (g, k)
  {
    if students.Some? && |students.value| >= 3 && g.currentStudent.None?
    then SetupNextQuestion(g, students, rand, k, now)
    else (g, k)
  }

  // ---------------------------------------------------------------------------
  // Lemmas
  // ---------------------------------------------------------------------------

  lemma SwapKeepsDistinctIds(a: seq<Student>, i: nat, j: nat)
    requires i < |a| && j < |a|
    requires DistinctIds(a)
    ensures DistinctIds(Swap(a, i, j))
  {
    var r := Swap(a, i, j);
    forall p, q | 0 <= p < q < |r|
      ensures r[p].id != r[q].id
    {
      var p' := if p == i then j else if p == j then i else p;
      var q' := if q == i then j else if q == j then i else q;
      assert r[p] == a[p'] && r[q] == a[q'] && p' != q';
    }
  }

  lemma {:induction false} FisherYatesKeepsDistinctIds(a: seq<Student>, i: nat, rand: nat -> Unit, k: nat)
    requires i < |a|
    requires DistinctIds(a)
    ensures DistinctIds(FisherYates(a, i, rand, k).0)
    decreases i
  {
    if i > 0 {
      var j := RandomIndex(rand(k), i + 1);
      SwapKeepsDistinctIds(a, i, j);
      FisherYatesKeepsDistinctIds(Swap(a, i, j), i - 1, rand, k + 1);
    }
  }

  /** Shuffling students with distinct ids yields students with distinct ids. */
  lemma ShuffleKeepsDistinctIds(a: seq<Student>, rand: nat -> Unit, k: nat)
    requires DistinctIds(a)
    ensures DistinctIds(ShuffleArray(a, rand, k).0)
  {
    if |a| > 0 {
      FisherYatesKeepsDistinctIds(a, |a| - 1, rand, k);
    }
  }

  /** Filtering out one present id from distinct-id students removes exactly
      that one student and keeps the rest distinct. */
  lemma {:induction false} WithoutIdOfMember(ss: seq<Student>, c: Student)
    requires DistinctIds(ss)
    requires c in ss
    ensures |WithoutId(ss, c.id)| == |ss| - 1
    ensures DistinctIds(WithoutId(ss, c.id))
    decreases |ss|
  {
    var rest := ss[1..];
    assert DistinctIds(rest);
    if ss[0] == c {
      WithoutIdAbsent(rest, c.id);
    } else {
      WithoutIdOfMember(rest, c);
      assert ss[0].id != c.id;
      var r := WithoutId(rest, c.id);
      assert forall x :: x in r ==> x.id != ss[0].id;
    }
  }

  lemma {:induction false} WithoutIdAbsent(ss: seq<Student>, id: int)
    requires forall i :: 0 <= i < |ss| ==> ss[i].id != id
    ensures WithoutId(ss, id) == ss
    decreases |ss|
  {
    if ss != [] {
      WithoutIdAbsent(ss[1..], id);
    }
  }

  /** The two distractors: distinct ids, neither one the target's. */
  lemma DistractorsWellFormed(ss: seq<Student>, current: Student, rand: nat -> Unit, k: nat)
    requires |ss| >= 3 && DistinctIds(ss) && current in ss
    ensures var pair := Take(ShuffleArray(WithoutId(ss, current.id), rand, k).0, 2);
      && |pair| == 2
      && DistinctIds(pair)
      && pair[0].id != current.id && pair[1].id != current.id
  {
    var filtered := WithoutId(ss, current.id);
    WithoutIdOfMember(ss, current);
    ShuffleKeepsDistinctIds(filtered, rand, k);
    ShuffleMembers(filtered, rand, k);
    var pair := Take(ShuffleArray(filtered, rand, k).0, 2);
    assert pair[0] in filtered && pair[1] in filtered;
  }

  /** With at least three students of distinct ids, the choice list for a
      target among them has exactly three entries, with distinct ids. */
  lemma ChoicesWellFormed(ss: seq<Student>, current: Student, rand: nat -> Unit, k: nat)
    requires |ss| >= 3 && DistinctIds(ss) && current in ss
    ensures |Choices(ss, current, rand, k).0| == 3
    ensures DistinctIds(Choices(ss, current, rand, k).0)
  {
    var others := ShuffleArray(WithoutId(ss, current.id), rand, k);
    DistractorsWellFormed(ss, current, rand, k);
    var base := [current] + Take(others.0, 2);
    BaseDistinct(current, Take(others.0, 2));
    ShuffleKeepsDistinctIds(base, rand, others.1);
    assert Choices(ss, current, rand, k) == ShuffleArray(base, rand, others.1);
  }

  lemma BaseDistinct(current: Student, pair: seq<Student>)
    requires |pair| == 2 && DistinctIds(pair)
    requires pair[0].id != current.id && pair[1].id != current.id
    ensures |[current] + pair| == 3 && DistinctIds([current] + pair)
  {
    var base := [current] + pair;
    assert base[0] == current && base[1] == pair[0] && base[2] == pair[1];
  }

  /** Three distinct-id choices containing the target hold it exactly once. */
  lemma TargetExactlyOnce(cs: seq<Student>, target: Student)
    requires |cs| == 3 && DistinctIds(cs) && target in cs
    ensures exists i ::
              0 <= i < 3 && cs[i] == target &&
              forall j :: 0 <= j < 3 && j != i ==> cs[j].id != target.id
  {
    var i :| 0 <= i < |cs| && cs[i] == target;
    assert forall j :: 0 <= j < 3 && j != i ==> cs[j].id != target.id;
  }

  /** With at least three students of distinct ids, the question has exactly
      three choices with distinct ids, exactly one of which is the target. */
  lemma SetupChoosesThree(g: GameState, ss: seq<Student>, rand: nat -> Unit, k: nat, now: int)
    requires |ss| >= 3
    requires DistinctIds(ss)
    ensures var g' := SetupNextQuestion(g, Some(ss), rand, k, now).0;
      && g'.choices.Some? && g'.currentStudent.Some?
      && |g'.choices.value| == 3
      && DistinctIds(g'.choices.value)
      && exists i :: 0 <= i < 3 && g'.choices.value[i] == g'.currentStudent.value &&
           forall j :: 0 <= j < 3 && j != i ==> g'.choices.value[j].id != g'.currentStudent.value.id
  {
    var current := ss[RandomIndex(rand(k), |ss|)];
    ChoicesWellFormed(ss, current, rand, k + 1);
    TargetExactlyOnce(Choices(ss, current, rand, k + 1).0, current);
  }

  /** Once a question is answered a second click records nothing, until the
      next question is set up and clears `correct` again. */
  lemma AnsweredAtMostOnce(g: GameState, first: Student, second: Student, now1: int, now2: int)
    requires ClickAnswer(g, first, now1).1.Some?
    ensures var g' := ClickAnswer(g, first, now1).0;
      ClickAnswer(g', second, now2) == (g', None)
  {
  }
}

=== FILE: roster.dfy ===
/** The fixed roster the server store is built from (shared/data/students.ts). */
module Roster {

  datatype PredefinedStudent = PredefinedStudent(name: string, photo: string)

  /** The predefined students, in the order the store numbers them. */
  function Predefined(): (r: seq<PredefinedStudent>)
    ensures |r| == 15
    ensures forall i :: 0 <= i < |r| ==> r[i].name != [] && r[i].photo != []
  {
    [ PredefinedStudent("Alice Smith", "shared/data/photos/alice-smith.jpg"),
      PredefinedStudent("Bob Johnson", "shared/data/photos/bob-johnson.jpg"),
      PredefinedStudent("Carol Williams", "shared/data/photos/carol-williams.jpg"),
      PredefinedStudent("David Brown", "shared/data/photos/david-brown.jpg"),
      PredefinedStudent("Emma Davis", "shared/data/photos/emma-davis.jpg"),
      PredefinedStudent("Frank Miller", "shared/data/photos/frank-miller.jpg"),
      PredefinedStudent("Grace Chen", "shared/data/photos/grace-chen.jpg"),
      PredefinedStudent("Henry Wilson", "shared/data/photos/henry-wilson.jpg"),
      PredefinedStudent("Isabel Rodriguez", "shared/data/photos/isabel-rodriguez.jpg"),
      PredefinedStudent("James Taylor", "shared/data/photos/james-taylor.jpg"),
      PredefinedStudent("Kelly Thompson", "shared/data/photos/kelly-thompson.jpg"),
      PredefinedStudent("Liam O'Connor", "shared/data/photos/liam-oconnor.jpg"),
      PredefinedStudent("Maria Garcia", "shared/data/photos/maria-garcia.jpg"),
      PredefinedStudent("Noah Parker", "shared/data/photos/noah-parker.jpg"),
      PredefinedStudent("Olivia Martinez", "shared/data/photos/olivia-martinez.jpg") ]
  }

  /** The names are pairwise distinct: their initials already are (A through O). */
  lemma PredefinedNamesDistinct()
    ensures forall i, j :: 0 <= i < j < |Predefined()| ==> Predefined()[i].name != Predefined()[j].name
  {
    var r := Predefined();
    var initials := "ABCDEFGHIJKLMNO";
    assert forall i :: 0 <= i < |r| ==> r[i].name[0] == initials[i];
  }
}

=== FILE: routes.dfy ===
/**
 The three HTTP handlers of server/routes.ts over the store, each as one
 atomic transition: two read-only GETs, and the POST that parses the body,
 appends the attempt and then bumps the counters.
 */
module Routes {
  import opened Wrappers
  import opened Schema
  import Storage
  import Roster

  /** A decoded JSON request body. */
  datatype Json =
    | JNull
    | JBool(b: bool)
    | JNum(n: real)
    | JStr(str: string)
    | JArr(items: seq<Json>)
    | JObj(fields: map<string, Json>)

  const StudentIdKey: string := "studentId"
  const CorrectKey: string := "correct"
  const TimeSpentKey: string := "timeSpent"

  /** The keys the insert schema picks; every other key is stripped. */
  function AttemptKeys(): (ks: set<string>)
  {
    {StudentIdKey, CorrectKey, TimeSpentKey}
  }

  /** A required integer column: a number without a fractional part. */
  function AsInt(j: Json): (r: Option<int>)
    ensures r.Some? ==> j == JNum(r.value as real)
  {
    if j.JNum? && j.n.Floor as real == j.n then Some(j.n.Floor) else None
  }

  /** A required boolean column. */
  function AsBool(j: Json): (r: Option<bool>)
    ensures r.Some? ==> j == JBool(r.value)
  {
    if j.JBool? then Some(j.b) else None
  }

  /** `insertQuizAttemptSchema.parse`: an object carrying an integer
      `studentId`, a boolean `correct` and an integer `timeSpent`. */
  function Parse(body: Json): (r: Option<InsertQuizAttempt>)
    ensures !body.JObj? ==> r.None?
    ensures r.Some? ==> AttemptKeys() <= body.fields.Keys
    ensures r.Some? ==> body.fields[CorrectKey] == JBool(r.value.correct)
  {
    if !body.JObj? then None
    else
      var f := body.fields;
      if StudentIdKey !in f || CorrectKey !in f || TimeSpentKey !in f then None
      else match (AsInt(f[StudentIdKey]), AsBool(f[CorrectKey]), AsInt(f[TimeSpentKey]))
        case (Some(id), Some(c), Some(t)) => Some(InsertQuizAttempt(id, c, t))
        case _ => None
  }

  /** The JSON body the client posts for an attempt. */
  function Encode(a: InsertQuizAttempt): (j: Json)
    ensures Parse(j) == Some(a)
    ensures j.JObj? && j.fields.Keys == AttemptKeys()
  {
    JObj(map[StudentIdKey := JNum(a.studentId as real),
             CorrectKey := JBool(a.correct),
             TimeSpentKey := JNum(a.timeSpent as real)])
  }

  /** Parsing only ever accepts the encoding of what it returns, up to keys
      the schema strips. */
  lemma ParseInvertsEncode(body: Json, a: InsertQuizAttempt)
    requires Parse(body) == Some(a)
    ensures body.JObj?
    ensures Encode(a) == JObj(map k | k in body.fields && k in AttemptKeys() :: body.fields[k])
  {
    var f := body.fields;
    assert AsInt(f[StudentIdKey]) == Some(a.studentId);
    assert AsBool(f[CorrectKey]) == Some(a.correct);
    assert AsInt(f[TimeSpentKey]) == Some(a.timeSpent);
  }

  /** Keys other than the three picked ones, such as a client-sent `id` or
      `timestamp`, never change the parse. */
  lemma ParseIgnoresOtherKeys(f: map<string, Json>, g: map<string, Json>)
    requires forall k :: k in AttemptKeys() ==> (k in f <==> k in g)
    requires forall k :: k in AttemptKeys() && k in f ==> f[k] == g[k]
    ensures Parse(JObj(f)) == Parse(JObj(g))
  {
  }

  datatype Request =
    | GetStudents
    | GetStatistics
    | PostAttempt(body: Json, now: int)

  datatype Response =
    | Students(students: seq<Student>)
    | Stats(stats: Statistics)
    | Recorded(attempt: QuizAttempt)
    | BadRequest

  /** One request against the store: the new store and the response. */
  function Handle(s: Storage.Store, req: Request): (r: (Storage.Store, Response))
    ensures !req.PostAttempt? ==> r.0 == s
    ensures req.GetStudents? ==> r.1 == Students(Storage.GetStudents(s))
    ensures req.GetStatistics? ==> r.1 == Stats(Storage.GetStatistics(s))
    ensures req.PostAttempt? && Parse(req.body).None? ==> r == (s, BadRequest)
    ensures req.PostAttempt? && Parse(req.body).Some? ==>
      var a := Parse(req.body).value;
      && |r.0.attempts| == |s.attempts| + 1
      && r.0.attempts[..|s.attempts|] == s.attempts
      && r.1 == Recorded(r.0.attempts[|s.attempts|])
      && r.1.attempt.id == s.attemptId
      && r.1.attempt.studentId == a.studentId
      && r.1.attempt.correct == a.correct
      && r.1.attempt.timeSpent == a.timeSpent
      && r.1.attempt.timestamp == req.now
      && |r.0.students| == |s.students|
  {
    match req
    case GetStudents => (s, Students(Storage.GetStudents(s)))
    case GetStatistics => (s, Stats(Storage.GetStatistics(s)))
    case PostAttempt(body, now) =>
      match Parse(body)
      case None => (s, BadRequest)
      case Some(a) =>
        var (s1, recorded) := Storage.RecordAttempt(s, a, now);
        (Storage.UpdateStudentStats(s1, a.studentId, a.correct), Recorded(recorded))
  }

  /** An accepted POST bumps the named student's counters when that student
      exists, and no counter at all when it does not. */
  lemma PostUpdatesCounters(s: Storage.Store, body: Json, now: int)
    requires Storage.Valid(s)
    requires Parse(body).Some?
    ensures var a := Parse(body).value;
      var s' := Handle(s, PostAttempt(body, now)).0;
      forall k :: 0 <= k < |s.students| ==>
        if s.students[k].id == a.studentId then
          && s'.students[k].totalAttempts == s.students[k].totalAttempts + 1
          && s'.students[k].correctAttempts == s.students[k].correctAttempts + (if a.correct then 1 else 0)
        else s'.students[k] == s.students[k]
    ensures var a := Parse(body).value;
      !(1 <= a.studentId <= |s.students|) ==> Handle(s, PostAttempt(body, now)).0.students == s.students
  {
    Storage.ValidDistinctIds(s);
  }

  /** Every handler keeps the store invariant. */
  lemma {:induction false} HandlePreservesValid(s: Storage.Store, req: Request)
    requires Storage.Valid(s)
    ensures Storage.Valid(Handle(s, req).0)
  {
    if req.PostAttempt? && Parse(req.body).Some? {
      var a := Parse(req.body).value;
      var s' := Handle(s, req).0;
      var log := s.attempts;
      var log' := s'.attempts;
      assert log'[..|log|] == log;
      Storage.ValidDistinctIds(s);
      forall k | 0 <= k < |s'.students|
        ensures s'.students[k].totalAttempts == Storage.CountFor(log', s'.students[k].id)
        ensures s'.students[k].correctAttempts == Storage.CountCorrectFor(log', s'.students[k].id)
      {
        assert s'.students[k].id == s.students[k].id;
      }
    }
  }

  /** A sequence of requests handled one after another. */
  function Run(s: Storage.Store, reqs: seq<Request>): (r: Storage.Store)
    decreases |reqs|
  {
    if reqs == [] then s else Run(Handle(s, reqs[0]).0, reqs[1..])
  }

  /** Whatever requests arrive, the store built from the predefined roster
      stays valid: its counters agree with its log. */
  lemma {:induction false} RunPreservesValid(s: Storage.Store, reqs: seq<Request>)
    requires Storage.Valid(s)
    ensures Storage.Valid(Run(s, reqs))
    decreases |reqs|
  {
    if reqs != [] {
      HandlePreservesValid(s, reqs[0]);
      RunPreservesValid(Handle(s, reqs[0]).0, reqs[1..]);
    }
  }

  lemma ServerStoreAlwaysValid(reqs: seq<Request>)
    ensures Storage.Valid(Run(Storage.New(Roster.Predefined()), reqs))
  {
    RunPreservesValid(Storage.New(Roster.Predefined()), reqs);
  }

  /** A POST for an existing student adds one entry to the log and one to the
      sum of the students' totals; for an unknown id only the log grows. */
  lemma PostKeepsPace(s: Storage.Store, body: Json, now: int)
    requires Storage.Valid(s)
    requires Parse(body).Some?
    ensures var s' := Handle(s, PostAttempt(body, now)).0;
      var id := Parse(body).value.studentId;
      && |s'.attempts| == |s.attempts| + 1
      && Storage.SumTotals(s'.students) ==
           Storage.SumTotals(s.students) + (if 1 <= id <= |s.students| then 1 else 0)
  {
    var s' := Handle(s, PostAttempt(body, now)).0;
    HandlePreservesValid(s, PostAttempt(body, now));
    Storage.LogKeepsPace(s);
    Storage.LogKeepsPace(s');
    assert s'.attempts[..|s.attempts|] == s.attempts;
  }
}

=== FILE: schema.dfy ===
/**
 Record shapes shared by the server store and the quiz client
 (shared/schema.ts). Each table row and interface becomes an immutable datatype.
 */
module Schema {
  import opened Wrappers

  /** A row of the `students` table. The random `avatarSeed` column is never
      read anywhere and is not modelled. The counters default to 0 and are only
      ever incremented, so they are natural numbers here. */
  datatype Student = Student(
    id: int,
    name: string,
    photo: Option<string>,
    totalAttempts: nat,
    correctAttempts: nat)

  /** A row of the `quizAttempts` table: `id` and `timestamp` are assigned by
      the store, the other three fields come from the client. */
  datatype QuizAttempt = QuizAttempt(
    id: int,
    studentId: int,
    correct: bool,
    timeSpent: int,
    timestamp: int)

  /** The insert shape: the three columns picked for `insertQuizAttemptSchema`
      and nothing else, so neither `id` nor `timestamp` can be supplied. */
  datatype InsertQuizAttempt = InsertQuizAttempt(
    studentId: int,
    correct: bool,
    timeSpent: int)

  /** Client-local quiz state. `correct` is tri-state: `None` while the current
      question is unanswered. */
  datatype GameState = GameState(
    score: nat,
    total: nat,
    correct: Option<bool>,
    currentStudent: Option<Student>,
    choices: Option<seq<Student>>,
    startTime: Option<int>)

  /** One entry of `Statistics.studentStats`. Accuracies are exact rationals
      standing in for the program's floating-point percentages. */
  datatype StudentStat = StudentStat(student: Student, accuracy: real, attempts: nat)

  datatype Statistics = Statistics(
    overallAccuracy: real,
    totalAttempts: nat,
    studentStats: seq<StudentStat>,
    recentAttempts: seq<QuizAttempt>)

  /** No two entries share an id (the store keys its students by id). */
  predicate DistinctIds(ss: seq<Student>)
  {
    forall i, j :: 0 <= i < j < |ss| ==> ss[i].id != ss[j].id
  }
}

=== FILE: session.dfy ===
/**
 The quiz page talking to the server: each answer the page scores is posted
 as one attempt (the client's `mutateAsync` call in
 client/src/pages/quiz.tsx, served by the POST handler of server/routes.ts).
 One play-through interleaves question set-ups and answer clicks; the
 page's student list is fetched once and held for the whole session.
 */
module Session {
  import opened Wrappers
  import opened Schema
  import opened Shuffle
  import Storage
  import Roster
  import Quiz
  import Routes

  /** The client's state, the server's store, the random cursor, and the log
      length when the session began. */
  datatype System = System(game: GameState, store: Storage.Store, cursor: nat, base: nat)

  datatype Event =
    | Next(now: int)
    | Click(chosen: Student, now: int, serverNow: int)

  /** One user event. A click that the page scores posts its attempt. */
  function Step(sys: System, students: Option<seq<Student>>, rand: nat -> Unit, e: Event): (r: System)
    ensures r.base == sys.base
    ensures e.Next? ==> r.store == sys.store
    ensures e.Next? ==> r.game.score == sys.game.score && r.game.total == sys.game.total
    ensures e.Next? && students.Some? && |students.value| >= 3 ==>
      && r.game.correct.None? && r.game.startTime == Some(e.now)
      && r.game.currentStudent.Some? && r.game.choices.Some?
      && r.game.currentStudent.value in students.value
      && r.game.currentStudent.value in r.game.choices.value
    ensures e.Next? && (students.None? || |students.value| < 3) ==> r == sys
    ensures e.Click? && sys.game.correct.Some? ==> r == sys
    ensures e.Click? ==>
      && r.game.currentStudent == sys.game.currentStudent
      && r.game.choices == sys.game.choices
      && r.game.startTime == sys.game.startTime
  {
    match e
    case Next(now) =>
      var (g, k) := Quiz.SetupNextQuestion(sys.game, students, rand, sys.cursor, now);
      sys.(game := g, cursor := k)
    case Click(chosen, now, serverNow) =>
      var (g, attempt) := Quiz.ClickAnswer(sys.game, chosen, now);
      match attempt
      case None => sys.(game := g)
      case Some(a) =>
        sys.(game := g, store := Routes.Handle(sys.store, Routes.PostAttempt(Routes.Encode(a), serverNow)).0)
  }

  /** The session's share of the log matches the page's score line: one entry
      per scored answer, and as many correct entries as points. */
  predicate InStep(sys: System)
  {
    && sys.base <= |sys.store.attempts|
    && |sys.store.attempts| - sys.base == sys.game.total
    && Storage.CountCorrect(sys.store.attempts[sys.base..]) == sys.game.score
  }

  /** Scoring an answer and posting it keep the page and the log in step, and
      the server's store valid. */
  lemma StepKeepsInStep(sys: System, students: Option<seq<Student>>, rand: nat -> Unit, e: Event)
    requires InStep(sys) && Storage.Valid(sys.store)
    ensures InStep(Step(sys, students, rand, e))
    ensures Storage.Valid(Step(sys, students, rand, e).store)
  {
    if e.Click? {
      var (g, attempt) := Quiz.ClickAnswer(sys.game, e.chosen, e.now);
      if attempt.Some? {
        var req := Routes.PostAttempt(Routes.Encode(attempt.value), e.serverNow);
        Routes.HandlePreservesValid(sys.store, req);
        var log := sys.store.attempts;
        var log' := Routes.Handle(sys.store, req).0.attempts;
        assert log'[sys.base..][..|log'[sys.base..]| - 1] == log[sys.base..];
      }
    }
  }

  /** The attempt a scored click posts names the target, carries whether the
      chosen student was the target, and lands at the end of the log; when the
      target exists on the server, its counters move with it. */
  lemma AnswerIsRecorded(sys: System, chosen: Student, now: int, serverNow: int, rand: nat -> Unit)
    requires Storage.Valid(sys.store)
    requires sys.game.correct.None?
    requires sys.game.currentStudent.Some? && sys.game.startTime.Some? && sys.game.startTime != Some(0)
    ensures var target := sys.game.currentStudent.value;
      var log := sys.store.attempts;
      var sys' := Step(sys, None, rand, Click(chosen, now, serverNow));
      && |sys'.store.attempts| == |log| + 1
      && sys'.store.attempts[|log|].studentId == target.id
      && sys'.store.attempts[|log|].correct == (chosen.id == target.id)
      && sys'.store.attempts[|log|].timeSpent * 1000 <= now - sys.game.startTime.value
      && now - sys.game.startTime.value < (sys'.store.attempts[|log|].timeSpent + 1) * 1000
      && sys'.game.correct == Some(chosen.id == target.id)
      && sys'.game.currentStudent == sys.game.currentStudent
      && sys'.game.choices == sys.game.choices
      && sys'.game.startTime == sys.game.startTime
      && (1 <= target.id <= |sys.store.students| ==>
            && sys'.store.students[target.id - 1].totalAttempts ==
                 sys.store.students[target.id - 1].totalAttempts + 1
            && sys'.store.students[target.id - 1].correctAttempts ==
                 sys.store.students[target.id - 1].correctAttempts + (if chosen.id == target.id then 1 else 0))
  {
    var (g, attempt) := Quiz.ClickAnswer(sys.game, chosen, now);
    var body := Routes.Encode(attempt.value);
    Routes.PostUpdatesCounters(sys.store, body, serverNow);
  }

  /** The server's own roster lets the page run: fifteen students with
      distinct ids, so every question gets three distinct choices. */
  lemma ServerRosterSupportsQuiz(g: GameState, rand: nat -> Unit, k: nat, now: int)
    ensures var ss := Storage.GetStudents(Storage.New(Roster.Predefined()));
      && |ss| == 15
      && DistinctIds(ss)
      && |Quiz.SetupNextQuestion(g, Some(ss), rand, k, now).0.choices.value| == 3
  {
    var s := Storage.New(Roster.Predefined());
    Storage.ValidDistinctIds(s);
    Quiz.SetupChoosesThree(g, s.students, rand, k, now);
  }
}

=== FILE: shuffle.dfy ===
/**
 The Fisher–Yates `shuffleArray` of client/src/pages/quiz.tsx over immutable
 sequences. `Math.random()` becomes an explicit stream `rand` of reals in
 [0, 1) read from a cursor `k`; every draw advances the cursor by one.
 */
module Shuffle {

  /** A value `Math.random()` can return. */
  type Unit = r: real | 0.0 <= r < 1.0

  /** `Math.floor(u * n)`: an index drawn from 0..n-1. */
  function RandomIndex(u: Unit, n: nat): (j: nat)
    requires n > 0
    ensures j < n
  {
    var x := u * (n as real);
    assert 0.0 <= x < n as real by {
      assert (1.0 - u) * (n as real) > 0.0;
    }
    x.Floor
  }

  /** Every index can be drawn: the value j / n yields index j. */
  lemma RandomIndexOnto(n: nat, j: nat)
    requires j < n
    ensures RandomIndex((j as real) / (n as real), n) == j
  {
  }

  /** Exchange the elements at positions i and j. */
  function Swap<T>(a: seq<T>, i: nat, j: nat): (r: seq<T>)
    requires i < |a| && j < |a|
    ensures |r| == |a|
    ensures r[i] == a[j] && r[j] == a[i]
    ensures forall k :: 0 <= k < |a| && k != i && k != j ==> r[k] == a[k]
    ensures multiset(r) == multiset(a)
  {
    a[i := a[j]][j := a[i]]
  }

  /** The loop body for i, i-1, ..., 1: swap position i with a random
      position in 0..i. Returns the array and the cursor after the last draw. */
  function FisherYates<T>(a: seq<T>, i: nat, rand: nat -> Unit, k: nat): (r: (seq<T>, nat))
    requires i < |a|
    ensures |r.0| == |a|
    ensures multiset(r.0) == multiset(a)
    ensures r.1 == k + i
    decreases i
  {
    if i == 0 then (a, k)
    else FisherYates(Swap(a, i, RandomIndex(rand(k), i + 1)), i - 1, rand, k + 1)
  }

  /** `shuffleArray`: a permutation of a copy of the input, drawing one random
      number per element but the first. */
  function ShuffleArray<T>(a: seq<T>, rand: nat -> Unit, k: nat): (r: (seq<T>, nat))
    ensures |r.0| == |a|
    ensures multiset(r.0) == multiset(a)
    ensures r.1 == if |a| == 0 then k else k + |a| - 1
  {
    if |a| == 0 then (a, k) else FisherYates(a, |a| - 1, rand, k)
  }
}

=== FILE: storage.dfy ===
/**
 The in-memory statistics store (`MemStorage` in server/storage.ts) as an
 immutable value with pure transitions. The store owns the roster, kept in
 insertion order (the order a JavaScript `Map` iterates in), and an
 append-only log of quiz attempts.
 */
module Storage {
  import opened Wrappers
  import opened Schema
  import Roster

  /** `currentId` and `attemptId` are the next ids the store will hand out. */
  datatype Store = Store(
    students: seq<Student>,
    attempts: seq<QuizAttempt>,
    currentId: int,
    attemptId: int)

  function Min(a: int, b: int): (m: int) { if a <= b then a else b }

  // ---------------------------------------------------------------------------
  // Counting over the attempt log. Each count is defined from the end of the
  // log, so appending one attempt adds at most one to it.
  // ---------------------------------------------------------------------------

  /** Attempts in `log` about student `id`. */
  function CountFor(log: seq<QuizAttempt>, id: int): (n: nat)
    ensures n <= |log|
  {
    if log == [] then 0
    else CountFor(log[..|log| - 1], id) + (if log[|log| - 1].studentId == id then 1 else 0)
  }

  /** Correct attempts in `log` about student `id`. */
  function CountCorrectFor(log: seq<QuizAttempt>, id: int): (n: nat)
    ensures n <= CountFor(log, id)
  {
    if log == [] then 0
    else
      var last := log[|log| - 1];
      CountCorrectFor(log[..|log| - 1], id) + (if last.studentId == id && last.correct then 1 else 0)
  }

  /** Correct attempts in `log`, whoever they are about. */
  function CountCorrect(log: seq<QuizAttempt>): (n: nat)
    ensures n <= |log|
  {
    if log == [] then 0
    else CountCorrect(log[..|log| - 1]) + (if log[|log| - 1].correct then 1 else 0)
  }

  /** Attempts in `log` whose student id lies in 1..n. */
  function CountKnown(log: seq<QuizAttempt>, n: nat): (c: nat)
    ensures c <= |log|
  {
    if log == [] then 0
    else CountKnown(log[..|log| - 1], n) + (if 1 <= log[|log| - 1].studentId <= n then 1 else 0)
  }

  /** Sum of `totalAttempts` over a list of students. */
  function SumTotals(ss: seq<Student>): (n: nat)
  {
    if ss == [] then 0 else SumTotals(ss[..|ss| - 1]) + ss[|ss| - 1].totalAttempts
  }

  // ---------------------------------------------------------------------------
  // The store invariant
  // ---------------------------------------------------------------------------

  /** Every store reachable from the constructor: students carry ids 1..n in
      order, log entries carry ids 1..m in order, both id counters point one
      past the end, and every student's counters agree with the log. */
  predicate Valid(s: Store)
  {
    && s.currentId == |s.students| + 1
    && (forall k :: 0 <= k < |s.students| ==> s.students[k].id == k + 1)
    && s.attemptId == |s.attempts| + 1
    && (forall k :: 0 <= k < |s.attempts| ==> s.attempts[k].id == k + 1)
    && (forall k :: 0 <= k < |s.students| ==>
          s.students[k].totalAttempts == CountFor(s.attempts, s.students[k].id))
    && (forall k :: 0 <= k < |s.students| ==>
          s.students[k].correctAttempts == CountCorrectFor(s.attempts, s.students[k].id))
  }

  // ---------------------------------------------------------------------------
  // Construction
  // ---------------------------------------------------------------------------

  /** The constructor's `forEach`: the k-th roster entry becomes a student with
      id `firstId + k`, its name and photo, and both counters at zero. */
  function Seed(roster: seq<Roster.PredefinedStudent>, firstId: int): (r: seq<Student>)
    ensures |r| == |roster|
    ensures forall k :: 0 <= k < |r| ==>
      && r[k].id == firstId + k
      && r[k].name == roster[k].name
      && r[k].photo == Some(roster[k].photo)
      && r[k].totalAttempts == 0
      && r[k].correctAttempts == 0
    decreases |roster|
  {
    if roster == [] then []
    else [Student(firstId, roster[0].name, Some(roster[0].photo), 0, 0)] + Seed(roster[1..], firstId + 1)
  }

  /** `new MemStorage()` over a given roster: empty log, students numbered from 1. */
  function New(roster: seq<Roster.PredefinedStudent>): (s: Store)
    ensures Valid(s)
    ensures s.attempts == [] && s.attemptId == 1
    ensures |s.students| == |roster|
    ensures forall k :: 0 <= k < |roster| ==>
      && s.students[k].name == roster[k].name
      && s.students[k].photo == Some(roster[k].photo)
      && s.students[k].totalAttempts == 0
      && s.students[k].correctAttempts == 0
  {
    Store(Seed(roster, 1), [], |roster| + 1, 1)
  }

  // ---------------------------------------------------------------------------
  // Operations
  // ---------------------------------------------------------------------------

  /** `Map.get`: the position of the student with the given id, if any. */
  function IndexOf(ss: seq<Student>, id: int): (r: Option<nat>)
    ensures r.Some? ==> r.value < |ss| && ss[r.value].id == id
    ensures r.Some? ==> forall j :: 0 <= j < r.value ==> ss[j].id != id
    ensures r.None? <==> forall j :: 0 <= j < |ss| ==> ss[j].id != id
    decreases |ss|
  {
    if ss == [] then None
    else if ss[0].id == id then Some(0)
    else match IndexOf(ss[1..], id)
      case None => None
      case Some(k) => Some(k + 1)
  }

  /** `getStudents`: all students, in id order on every valid store. */
  function GetStudents(s: Store): (r: seq<Student>)
    ensures |r| == |s.students|
    ensures forall k :: 0 <= k < |r| ==> r[k] in s.students
    ensures Valid(s) ==> forall k :: 0 <= k < |r| ==> r[k].id == k + 1
    ensures Valid(s) ==> forall i, j :: 0 <= i < j < |r| ==> r[i].id < r[j].id
  {
    s.students
  }

  /** `recordAttempt`: stamp the insert with the next attempt id and `now`, and
      append it. No check is made on `studentId` or `timeSpent`. */
  function RecordAttempt(s: Store, a: InsertQuizAttempt, now: int): (r: (Store, QuizAttempt))
    ensures r.1.id == s.attemptId
    ensures r.1.studentId == a.studentId && r.1.correct == a.correct
    ensures r.1.timeSpent == a.timeSpent && r.1.timestamp == now
    ensures |r.0.attempts| == |s.attempts| + 1
    ensures r.0.attempts[..|s.attempts|] == s.attempts && r.0.attempts[|s.attempts|] == r.1
    ensures r.0.attemptId == s.attemptId + 1
    ensures r.0.students == s.students && r.0.currentId == s.currentId
  {
    var rec := QuizAttempt(s.attemptId, a.studentId, a.correct, a.timeSpent, now);
    (s.(attempts := s.attempts + [rec], attemptId := s.attemptId + 1), rec)
  }

  /** `updateStudentStats`: bump the counters of the student with that id;
      an unknown id is silently ignored. */
  function UpdateStudentStats(s: Store, studentId: int, correct: bool): (r: Store)
    ensures r.attempts == s.attempts && r.attemptId == s.attemptId && r.currentId == s.currentId
    ensures |r.students| == |s.students|
    ensures (forall k :: 0 <= k < |s.students| ==> s.students[k].id != studentId) ==> r == s
    ensures DistinctIds(s.students) ==> forall k :: 0 <= k < |s.students| ==>
      if s.students[k].id == studentId then
        && r.students[k].id == studentId
        && r.students[k].name == s.students[k].name
        && r.students[k].photo == s.students[k].photo
        && r.students[k].totalAttempts == s.students[k].totalAttempts + 1
        && r.students[k].correctAttempts == s.students[k].correctAttempts + (if correct then 1 else 0)
      else
        r.students[k] == s.students[k]
    ensures forall k :: 0 <= k < |s.students| ==>
      s.students[k].correctAttempts <= s.students[k].totalAttempts ==>
      r.students[k].correctAttempts <= r.students[k].totalAttempts
  {
    match IndexOf(s.students, studentId)
    case None => s
    case Some(k) =>
      var st := s.students[k];
      var bumped := st.(totalAttempts := st.totalAttempts + 1,
                        correctAttempts := st.correctAttempts + (if correct then 1 else 0));
      s.(students := s.students[k := bumped])
  }

  // ---------------------------------------------------------------------------
  // The statistics report
  // ---------------------------------------------------------------------------

  /** A percentage `correct / total * 100`, and 0 when there is nothing to divide by. */
  function Accuracy(correct: nat, total: nat): (a: real)
    ensures total == 0 ==> a == 0.0
    ensures total > 0 ==> a * (total as real) == 100.0 * (correct as real)
    ensures correct <= total ==> 0.0 <= a <= 100.0
  {
    if total > 0 then (correct as real / total as real) * 100.0 else 0.0
  }

  /** The sequence read back to front. */
  function Reverse<T>(s: seq<T>): (r: seq<T>)
    ensures |r| == |s|
    ensures forall i :: 0 <= i < |s| ==> r[i] == s[|s| - 1 - i]
  {
    if s == [] then [] else [s[|s| - 1]] + Reverse(s[..|s| - 1])
  }

  /** `attempts.slice(-10).reverse()`: the last ten entries (all of them when
      there are fewer), most recent first. */
  function Recent(log: seq<QuizAttempt>): (r: seq<QuizAttempt>)
    ensures |r| == Min(10, |log|)
    ensures forall i :: 0 <= i < |r| ==> r[i] == log[|log| - 1 - i]
  {
    Reverse(log[|log| - Min(10, |log|)..])
  }

  /** One entry of the report: the student, its accuracy and its attempt count. */
  function StatFor(st: Student): (r: StudentStat)
    ensures r.student == st && r.attempts == st.totalAttempts
    ensures st.totalAttempts == 0 ==> r.accuracy == 0.0
    ensures st.totalAttempts > 0 ==>
      r.accuracy * (st.totalAttempts as real) == 100.0 * (st.correctAttempts as real)
  {
    StudentStat(st, Accuracy(st.correctAttempts, st.totalAttempts), st.totalAttempts)
  }

  /** `students.map(...)`: one report entry per student, in order. */
  function StudentStats(ss: seq<Student>): (r: seq<StudentStat>)
    ensures |r| == |ss|
    ensures forall k :: 0 <= k < |ss| ==>
      && r[k].student == ss[k]
      && r[k].attempts == ss[k].totalAttempts
      && (ss[k].totalAttempts == 0 ==> r[k].accuracy == 0.0)
      && (ss[k].totalAttempts > 0 ==>
            r[k].accuracy * (ss[k].totalAttempts as real) == 100.0 * (ss[k].correctAttempts as real))
  {
    seq(|ss|, k requires 0 <= k < |ss| => StatFor(ss[k]))
  }

  /** `getStatistics`: the report derived from the current store. */
  function GetStatistics(s: Store): (st: Statistics)
    ensures st.totalAttempts == |s.attempts|
    ensures |s.attempts| == 0 ==> st.overallAccuracy == 0.0
    ensures |s.attempts| > 0 ==>
      st.overallAccuracy * (|s.attempts| as real) == 100.0 * (CountCorrect(s.attempts) as real)
    ensures 0.0 <= st.overallAccuracy <= 100.0
    ensures |st.studentStats| == |s.students|
    ensures forall k :: 0 <= k < |s.students| ==>
      && st.studentStats[k].student == s.students[k]
      && st.studentStats[k].attempts == s.students[k].totalAttempts
      && (s.students[k].totalAttempts == 0 ==> st.studentStats[k].accuracy == 0.0)
      && (s.students[k].totalAttempts > 0 ==>
            st.studentStats[k].accuracy * (s.students[k].totalAttempts as real) ==
              100.0 * (s.students[k].correctAttempts as real))
    ensures |st.recentAttempts| == Min(10, |s.attempts|)
    ensures forall i :: 0 <= i < |st.recentAttempts| ==>
      st.recentAttempts[i] == s.attempts[|s.attempts| - 1 - i]
  {
    Statistics(
      Accuracy(CountCorrect(s.attempts), |s.attempts|),
      |s.attempts|,
      StudentStats(s.students),
      Recent(s.attempts))
  }

  // ---------------------------------------------------------------------------
  // Lemmas
  // ---------------------------------------------------------------------------

  /** On a valid store every student's correct count is at most its total, so
      every per-student accuracy in the report is a percentage. */
  lemma {:induction false} ValidCountersOrdered(s: Store)
    requires Valid(s)
    ensures forall k :: 0 <= k < |s.students| ==>
      s.students[k].correctAttempts <= s.students[k].totalAttempts
    ensures forall k :: 0 <= k < |s.students| ==>
      0.0 <= GetStatistics(s).studentStats[k].accuracy <= 100.0
  {
    forall k | 0 <= k < |s.students|
      ensures s.students[k].correctAttempts <= s.students[k].totalAttempts
    {
      assert CountCorrectFor(s.attempts, s.students[k].id) <= CountFor(s.attempts, s.students[k].id);
    }
  }

  /** On a valid store, a student id is known exactly when it lies in 1..n,
      and then it sits at position id - 1. */
  lemma ValidIndexOf(s: Store, id: int)
    requires Valid(s)
    ensures IndexOf(s.students, id).Some? <==> 1 <= id <= |s.students|
    ensures 1 <= id <= |s.students| ==> IndexOf(s.students, id) == Some(id - 1)
  {
    if 1 <= id <= |s.students| {
      assert s.students[id - 1].id == id;
    }
  }

  lemma ValidDistinctIds(s: Store)
    requires Valid(s)
    ensures DistinctIds(s.students)
  {
  }

  /** Counting attempts with ids in 1..n+1 adds those about student n+1. */
  lemma {:induction false} CountKnownStep(log: seq<QuizAttempt>, n: nat)
    ensures CountKnown(log, n + 1) == CountKnown(log, n) + CountFor(log, n + 1)
  {
    if log != [] {
      CountKnownStep(log[..|log| - 1], n);
    }
  }

  /** When student k+1 has as many attempts as the log holds about id k+1, the
      sum of the totals equals the number of attempts about known students. */
  lemma {:induction false} SumTotalsCountsKnown(ss: seq<Student>, log: seq<QuizAttempt>)
    requires forall k :: 0 <= k < |ss| ==> ss[k].totalAttempts == CountFor(log, k + 1)
    ensures SumTotals(ss) == CountKnown(log, |ss|)
  {
    if ss == [] {
      ZeroKnown(log);
    } else {
      var n := |ss| - 1;
      SumTotalsCountsKnown(ss[..n], log);
      CountKnownStep(log, n);
    }
  }

  lemma {:induction false} ZeroKnown(log: seq<QuizAttempt>)
    ensures CountKnown(log, 0) == 0
  {
    if log != [] {
      ZeroKnown(log[..|log| - 1]);
    }
  }

  /** The counters keep pace with the log: on a valid store the totals add up
      to the number of logged attempts about existing students, and to the
      whole log when no attempt names an unknown student. */
  lemma LogKeepsPace(s: Store)
    requires Valid(s)
    ensures SumTotals(s.students) == CountKnown(s.attempts, |s.students|)
    ensures (forall k :: 0 <= k < |s.attempts| ==> 1 <= s.attempts[k].studentId <= |s.students|) ==>
      SumTotals(s.students) == |s.attempts|
  {
    SumTotalsCountsKnown(s.students, s.attempts);
    if forall k :: 0 <= k < |s.attempts| ==> 1 <= s.attempts[k].studentId <= |s.students| {
      AllKnown(s.attempts, |s.students|);
    }
  }

  lemma {:induction false} AllKnown(log: seq<QuizAttempt>, n: nat)
    requires forall k :: 0 <= k < |log| ==> 1 <= log[k].studentId <= n
    ensures CountKnown(log, n) == |log|
  {
    if log != [] {
      AllKnown(log[..|log| - 1], n);
    }
  }
}

=== FILE: wrappers.dfy ===
/** Optional values: the program's `undefined` / `null` fields and failed lookups. */
module Wrappers {

  datatype Option<+T> = None | Some(value: T)
}
